=== FILE: README.md ===
# cartrack-api: pagination and car resources

A model of the REST service in `main.py` of cartrack-api, which serves a
MongoDB `cars` collection over HTTP. The model replaces the collection with an
ordered sequence of car documents (`CarStore.Store`, insertion order) and each
handler with a pure function from the store and the request to the response
and the store after the request.

- `CarStore`: the car document (VIN, model name and year, location, previous
  owner count, embedded accident summaries), the two filters the service
  issues (`{}` and `{"VIN": v}`), and the store primitives `find` with
  skip/limit, `count_documents`, `insert_one` and `delete_many`.
- `VinCheck`: `verify_vin`, over any value a request can carry; Python's
  `len` failing on a value counts as "not valid".
- `Pagination`: `get_data` (skip `(startIndex-1)*count`, limit `count`,
  total over the whole collection) and `get_urls` (previous and next links),
  with lemmas showing that the links and pages fit together.
- `Resources`: `index_args`, `Cars.get`, `Cars.post`, `Car.get` and
  `Car.delete`, returning `Response(status, body)` where the body is the JSON
  envelope `{success, ...}` or the empty body of a 204.
- `Properties`: what sequences of requests do. Any sequential mix of
  creates, deletes and gets keeps "at most one car per VIN". Create then get
  returns the car. Create then delete
  restores the store. Get and delete agree on existence.

Two behaviours of `main.py` the model keeps:
- The total reported next to a page counts the whole collection (`count_documents({})`), not the documents the filter matches.
- A non-positive `count` or `startIndex` is rejected by the argument parser, not replaced by the default.

## Model

| member | source | states |
|---|---|---|
| CarStore.Find | main.py:58 | the page is the run of matching documents from position `skip` on, in store order, at most `limit` long; a limit of 0 returns all of them and a skip past the end returns nothing |
| CarStore.SelectAll | main.py:58 | the empty filter matches every document, so the count of `{}` is the size of the whole collection |
| CarStore.InsertOne | main.py:60-63 | the inserted document ends up after all stored ones, which are unchanged |
| CarStore.DeleteMany | main.py:65-67 | deleting by a filter keeps exactly the non-matching documents in their order, and the deleted count equals the number of matching documents |
| CarStore.SelectRejectPartition | main.py:65-67 | the matching and non-matching documents together are the store, as a multiset |
| CarStore.SelectAppend | main.py:60-63 | after an insert, a filter selects what it selected before, followed by the new document if it matches |
| CarStore.RejectAppend | main.py:60-67 | after an insert, deletion by a filter keeps what it kept before, followed by the new document if that does not match |
| VinCheck.VerifyVin | main.py:76-81 | a value is a valid VIN exactly when it has a length and that length is 6; values without a length are invalid rather than an error |
| VinCheck.ValidVin | main.py:76-81 | a VIN from a URL path is valid exactly when it has 6 characters |
| Pagination.GetData | main.py:54-58 | page `startIndex` holds the matching documents from position `(startIndex-1)*count` on, exactly `count` of them or the remainder when fewer are left; `count` 0 yields all of them; the total is the size of the whole collection, whatever the filter or page |
| Pagination.GetUrls | main.py:70-74 | a previous link exists iff `startIndex > 1` and carries `(count, startIndex-1)`; a next link exists iff `total > count*startIndex` and carries `(count, startIndex+1)` |
| Pagination.PageSize | main.py:54-58 | a page of the whole collection is full, partial (the remainder) or empty depending on where its window falls |
| Pagination.PageIsSlice | main.py:54-58 | a page of the whole collection is exactly the slice of the store named by its window |
| Pagination.PageOfWholeStore | main.py:54-58 | a page of the whole collection is the slice its window names, cut short at the end of the store, and empty when the window starts past the end |
| Pagination.NextLinkIffNextPageNonEmpty | main.py:70-74 | the next link is offered iff the page it points to holds at least one car |
| Pagination.PrevPageIsFull | main.py:72 | a non-empty page after the first is preceded by a full page |
| Pagination.LastPageReachesEnd | main.py:73 | a page with no next link returns every car from its window start to the end of the store |
| Pagination.PagesCoverPrefix | main.py:54-58 | pages 1 to k, concatenated, are the first k*count cars of the store, none repeated or lost |
| Resources.IndexArgs | main.py:84 | a missing count defaults to 10 and a missing startIndex to 1; the arguments are accepted iff every given value is positive |
| Resources.CarsGet | main.py:91-99 | listing answers 200 with the store slice from position `(startIndex-1)*count` holding `count` cars, or the remainder when fewer are left, or nothing past the end; and the previous/next links by the iff rules |
| Resources.CarsGetRequest | main.py:84-99 | a list request is answered iff its query arguments pass the positivity check, and then with the `Cars.get` page for the given values, a missing `count` taken as 10 and a missing `startIndex` as 1 |
| Resources.CarsPost | main.py:101-110 | a create whose VIN is stored answers `success:false` with status 200 and leaves the store as it was; otherwise it appends the car and echoes it back |
| Resources.CarGet | main.py:119-127 | an invalid VIN answers 400; a valid one answers 404 iff no car has it, and otherwise 200 with every car having it, in store order |
| Resources.CarDelete | main.py:129-137 | an invalid VIN answers 400 with the store unchanged; a valid one removes exactly the cars having it and keeps the rest in order, answering 404 with the store unchanged when none had it and 204 otherwise |
| Resources.RejectNothing | main.py:133-135 | deleting a VIN that no car has leaves the store as it was |
| Properties.UniqueVinsAtMostOne | main.py:105-107 | while VINs are unique, a VIN addresses at most one car |
| Properties.PostKeepsUnique | main.py:105-110 | a single create, accepted or refused, keeps at most one car per VIN |
| Properties.PostAllKeepsUnique | main.py:105-110 | any sequence of creates keeps at most one car per VIN, and afterwards every VIN that was given or already stored is present |
| Properties.RejectKeepsUnique | main.py:65-67 | deleting the documents a filter selects keeps at most one car per VIN |
| Properties.DeleteKeepsUnique | main.py:129-137 | a delete, whatever it answers, keeps at most one car per VIN |
| Properties.HandleKeepsUnique | main.py:101-137 | a single create, delete or get keeps at most one car per VIN |
| Properties.RunKeepsUnique | main.py:101-137 | any sequence of creates, deletes and gets, handled one after another, keeps at most one car per VIN |
| Properties.PostThenGet | main.py:105-127 | fetching a car right after creating it with a new 6-character VIN returns exactly that car with status 200 |
| Properties.PostThenDelete | main.py:105-137 | deleting a car right after creating it answers 204 and restores the store as it was before the create |
| Properties.PostTwice | main.py:105-110 | creating the same car twice refuses the second create, leaves the store unchanged by it, and exactly one car with that VIN remains |
| Properties.GetDeleteAgree | main.py:119-137 | for a valid VIN, get answers 404 iff delete does, and get answers 200 iff delete answers 204 |
| Properties.DeleteThenGone | main.py:119-137 | after deleting a VIN, a get of it and a second delete both answer 404 and the second delete changes nothing |
| Properties.InvalidVinUnreachable | main.py:101-132 | create does not check the VIN, so a car stored under a VIN that is not 6 long is accepted but can then be neither fetched nor deleted |
| Properties.FiveCarsTwoPerPage | main.py:91-99 | with five cars and two per page, page 1 holds the first two cars and has only a next link; page 3 holds the fifth car and has only a previous link |
| Properties.DefaultCountSecondPage | main.py:84-99 | a list request that names only page 2 gets the default page size of 10: on 25 cars it returns cars 10 to 19, with links to pages 1 and 3 |

## Left out

- HTTP routing, `make_response`/`jsonify` serialisation and Flask plumbing: framework glue. Responses are the `Response` datatype instead.
- The argument parser's own rejection response (its status and error message), and non-integer query values: library behaviour. `CarsGetRequest` answers `None` for a rejected request.
- The MongoDB client and connection setup (main.py:10-11). The store is a sequence. Documents in it have no `_id`, so neither the `{"_id":0}` projection nor `data.pop("_id")` appears.
- `find` order: the model assumes documents come back in insertion order. MongoDB's natural order normally gives this but does not promise it.
- `eval` of the request body (main.py:102): the body is modelled as an already-parsed `Car`. A body without a `VIN` key, and a `VIN` that is not a string, are not modelled.
- Schemaless documents: a car carries the fields documented at main.py:16-32. Any other field except `_id` would pass through create and get unchanged.
- A client-supplied `_id` in a create body: the service stores it but drops it from the echo and from every read. A repeated `_id` makes `insert_one` raise even for a new VIN, where the model appends.
- The `log` file appends and `print` calls (main.py:48-52, 57, 104): I/O side effects only.
- The unsynchronised check-then-insert in `Cars.post` under concurrent requests: concurrency. Uniqueness is proved for sequential calls only.
- URL formatting of the links and the unused `Car.temp_url` (main.py:89, 117): a link is `Link(count, startIndex)`, the two numbers the URL template receives.
- The `accidents` collection: no handler of this file reads or writes it.
- Pagination.GetData: requires `count >= 0` and `startIndex >= 1`, which every caller supplies. A negative skip, which the driver would reject, is not modelled.
- Resources.CarsGet: requires positive `count` and `startIndex`. `CarsGetRequest` covers the parser that enforces this. The model's integers are unbounded, but MongoDB's skip and limit are 64-bit. A skip or count of 2^63 or more (say `count=10`, `startIndex=10**18`) makes the driver raise instead of answering 200 with an empty page; that failure is not modelled.
- Resources.CarsGetRequest: the parser accepts integers of any size, so "answered with 200 iff the arguments are positive" holds only while the skip `(startIndex-1)*count` and `count` stay below 2^63. Past that the driver raises, which is not modelled.
- Store failures: an unreachable store or any other driver error makes every handler raise (a 500 from Flask). The model's store primitives always succeed.

=== FILE: pagination.dfy ===
/**
 * The pagination engine: `(count, startIndex)` becomes a skip/limit window
 * over the filtered collection, and the total plus the page position decide
 * which navigation links exist.
 */
module Pagination {
  import opened Wrappers
  import opened CarStore

  /** Documents skipped before page `startIndex` of `count` documents. */
  function SkipOf(count: nat, startIndex: int): nat
    requires startIndex >= 1
  {
    (startIndex - 1) * count
  }

  /** The documents of one page plus the collection's total. */
  datatype PageData = PageData(items: Store, totalCount: nat)

  /**
   * `get_data`: page `startIndex` of the documents matching `f`, at most
   * `count` of them (`count == 0` means all), and the size of the whole
   * collection -- counted with the empty filter, not with `f`.
   */
  function GetData(s: Store, f: Filter, count: nat, startIndex: int): (p: PageData)
    requires startIndex >= 1
    ensures p.totalCount == |s|
    ensures var k, m := SkipOf(count, startIndex), Select(s, f);
            && (count > 0 ==> |p.items| <= count)
            && (forall i :: 0 <= i < |p.items| ==> k + i < |m| && p.items[i] == m[k + i])
            && (k >= |m| ==> p.items == [])
            && (count > 0 && k < |m| ==> |p.items| == if k + count <= |m| then count else |m| - k)
            && (count == 0 ==> p.items == m)
  {
    SelectAll(s);
    PageData(Find(s, f, SkipOf(count, startIndex), count), CountDocuments(s, All))
  }

  /** A navigation link: the page size and page index a link's URL carries. */
  datatype Link = Link(count: int, startIndex: int)

  datatype Links = Links(prev: Option<Link>, next: Option<Link>)

  /**
   * `get_urls`: a previous link exactly when this is not the first page, a
   * next link exactly when the total exceeds what this page and the ones
   * before it can hold.
   */
  function GetUrls(count: int, startIndex: int, totalCount: int): (l: Links)
    ensures l.prev.Some? <==> startIndex > 1
    ensures l.prev.Some? ==> l.prev.value == Link(count, startIndex - 1)
    ensures l.next.Some? <==> totalCount > count * startIndex
    ensures l.next.Some? ==> l.next.value == Link(count, startIndex + 1)
  {
    Links(
      if startIndex > 1 then Some(Link(count, startIndex - 1)) else None,
      if totalCount > count * startIndex then Some(Link(count, startIndex + 1)) else None)
  }

  /** The size of page `startIndex` of the whole collection. */
  lemma PageSize(s: Store, count: nat, startIndex: int)
    requires count > 0 && startIndex >= 1
    ensures var n := |GetData(s, All, count, startIndex).items|;
            n == if SkipOf(count, startIndex) >= |s| then 0
                 else if SkipOf(count, startIndex) + count <= |s| then count
                 else |s| - SkipOf(count, startIndex)
  {
    PageOfWholeStore(s, count, startIndex);
  }

  /** On the whole collection a page holds exactly the slice its window names. */
  lemma PageIsSlice(s: Store, count: nat, startIndex: int)
    requires count > 0 && startIndex >= 1 && SkipOf(count, startIndex) <= |s|
    ensures var k := SkipOf(count, startIndex);
            GetData(s, All, count, startIndex).items
              == s[k .. if k + count <= |s| then k + count else |s|]
  {
    SelectAll(s);
  }

  /** A page of the whole collection is its window's slice, or empty past the end. */
  lemma PageOfWholeStore(s: Store, count: nat, startIndex: int)
    requires count > 0 && startIndex >= 1
    ensures var k := SkipOf(count, startIndex);
            GetData(s, All, count, startIndex).items
              == if k <= |s| then s[k .. if k + count <= |s| then k + count else |s|] else []
  {
    SelectAll(s);
    if SkipOf(count, startIndex) <= |s| {
      PageIsSlice(s, count, startIndex);
    }
  }

  /**
   * The next link is offered exactly when the page it points to holds at
   * least one document.
   */
  lemma NextLinkIffNextPageNonEmpty(s: Store, count: nat, startIndex: int)
    requires count > 0 && startIndex >= 1
    ensures GetUrls(count, startIndex, GetData(s, All, count, startIndex).totalCount).next.Some?
            <==> GetData(s, All, count, startIndex + 1).items != []
  {
  }

  /**
   * A page that is not the first and holds something is preceded by a full
   * page: the previous link never leads to a short page.
   */
  lemma PrevPageIsFull(s: Store, count: nat, startIndex: int)
    requires count > 0 && startIndex > 1
    requires GetData(s, All, count, startIndex).items != []
    ensures |GetData(s, All, count, startIndex - 1).items| == count
  {
  }

  /**
   * A page without a next link returns every document from its window's start
   * to the end of the collection: nothing is left unreachable.
   */
  lemma {:induction false} LastPageReachesEnd(s: Store, count: nat, startIndex: int)
    requires count > 0 && startIndex >= 1 && SkipOf(count, startIndex) <= |s|
    requires GetUrls(count, startIndex, |s|).next.None?
    ensures GetData(s, All, count, startIndex).items == s[SkipOf(count, startIndex)..]
  {
    SelectAll(s);
    assert SkipOf(count, startIndex) + count == count * startIndex;
  }

  /** Pages 1 to `k` of the whole collection, concatenated. */
  function Pages(s: Store, count: nat, k: nat): Store
  {
    if k == 0 then [] else Pages(s, count, k - 1) + GetData(s, All, count, k).items
  }

  /**
   * Walking the pages in order reproduces the collection: pages 1 to `k`
   * together are its first `k * count` documents, with none repeated or lost.
   */
  lemma {:induction false} PagesCoverPrefix(s: Store, count: nat, k: nat)
    requires count > 0
    ensures Pages(s, count, k) == s[.. if k * count <= |s| then k * count else |s|]
  {
    PagesCoverUpTo(s, count, k, k * count);
  }

  /** `PagesCoverPrefix` with the product `k * count` named `n`. */
  lemma {:induction false} PagesCoverUpTo(s: Store, count: nat, k: nat, n: nat)
    requires count > 0 && n == k * count
    ensures Pages(s, count, k) == s[.. if n <= |s| then n else |s|]
  {
    if k > 0 {
      var k0 := SkipOf(count, k);
      SkipStep(k, count);
      assert k0 + count == n;
      PagesCoverUpTo(s, count, k - 1, k0);
      PageAppend(s, count, k, k0);
    }
  }

  /** Pages 1 to `k - 1` ending at `k0` extend by page `k` to `k0 + count`. */
  lemma PageAppend(s: Store, count: nat, k: nat, k0: nat)
    requires count > 0 && k > 0 && k0 == SkipOf(count, k)
    requires Pages(s, count, k - 1) == s[.. if k0 <= |s| then k0 else |s|]
    ensures Pages(s, count, k) == s[.. if k0 + count <= |s| then k0 + count else |s|]
  {
    var e := if k0 + count <= |s| then k0 + count else |s|;
    var page := GetData(s, All, count, k).items;
    if k0 <= |s| {
      PageIsSlice(s, count, k);
      assert s[..k0] + s[k0..e] == s[..e];
    } else {
      SelectAll(s);
      assert page == [];
    }
  }

  /** Page `k` starts `c` documents before page `k + 1`. */
  lemma SkipStep(k: nat, c: nat)
    requires k > 0
    ensures (k - 1) * c + c == k * c
  {
  }
}

=== FILE: properties.dfy ===
/**
 * Properties of sequences of requests against one store: the VIN uniqueness
 * invariant that sequential creates keep, and how create, get and delete
 * answer one another.
 */
module Properties {
  import opened Wrappers
  import opened CarStore
  import opened Pagination
  import opened Resources

  /** At most one stored car per VIN. */
  predicate UniqueVins(s: Store) {
    forall i, j :: 0 <= i < j < |s| ==> s[i].vin != s[j].vin
  }

  /** Under the invariant, a VIN addresses at most one car. */
  lemma {:induction false} UniqueVinsAtMostOne(s: Store, vin: string)
    requires UniqueVins(s)
    ensures |WithVin(s, vin)| <= 1
    decreases |s|
  {
    if s != [] {
      assert UniqueVins(s[1..]) by {
        forall i, j | 0 <= i < j < |s[1..]| ensures s[1..][i].vin != s[1..][j].vin {
          assert s[1..][i] == s[i + 1] && s[1..][j] == s[j + 1];
        }
      }
      UniqueVinsAtMostOne(s[1..], vin);
      if s[0].vin == vin {
        assert !HasVin(s[1..], vin) by {
          forall c | c in s[1..] ensures c.vin != vin {
            var j :| 0 <= j < |s[1..]| && s[1..][j] == c;
            assert s[j + 1] == c;
          }
        }
        SelectVinEmpty(s[1..], vin);
      }
    }
  }

  /** One create keeps the invariant, whether it is accepted or refused. */
  lemma PostKeepsUnique(s: Store, car: Car)
    requires UniqueVins(s)
    ensures UniqueVins(CarsPost(s, car).store)
  {
  }

  /** The store after a sequence of creates, in order. */
  function PostAll(s: Store, cars: seq<Car>): Store
    decreases |cars|
  {
    if cars == [] then s else PostAll(CarsPost(s, cars[0]).store, cars[1..])
  }

  /**
   * Sequential creates never break the invariant, and every VIN they were
   * given is stored afterwards -- either the create added it or it was
   * already there.
   */
  lemma {:induction false} PostAllKeepsUnique(s: Store, cars: seq<Car>)
    requires UniqueVins(s)
    ensures UniqueVins(PostAll(s, cars))
    ensures forall c :: c in cars ==> HasVin(PostAll(s, cars), c.vin)
    ensures forall vin :: HasVin(s, vin) ==> HasVin(PostAll(s, cars), vin)
    decreases |cars|
  {
    if cars != [] {
      var s' := CarsPost(s, cars[0]).store;
      PostKeepsUnique(s, cars[0]);
      assert HasVin(s', cars[0].vin) by {
        if !HasVin(s, cars[0].vin) {
          assert s'[|s|] == cars[0];
        }
      }
      assert forall vin :: HasVin(s, vin) ==> HasVin(s', vin) by {
        forall vin | HasVin(s, vin) ensures HasVin(s', vin) {
          var c :| c in s && c.vin == vin;
          assert c in s';
        }
      }
      PostAllKeepsUnique(s', cars[1..]);
      forall c | c in cars ensures HasVin(PostAll(s, cars), c.vin) {
        if c != cars[0] {
          assert c in cars[1..];
        }
      }
    }
  }

  /** Removing the cars a filter selects keeps the invariant. */
  lemma {:induction false} RejectKeepsUnique(s: Store, f: Filter)
    requires UniqueVins(s)
    ensures UniqueVins(Reject(s, f))
    decreases |s|
  {
    if s != [] {
      var t := s[1..];
      assert UniqueVins(t) by {
        forall i, j | 0 <= i < j < |t| ensures t[i].vin != t[j].vin {
          assert t[i] == s[i + 1] && t[j] == s[j + 1];
        }
      }
      RejectKeepsUnique(t, f);
      if !Matches(s[0], f) {
        var r := Reject(t, f);
        var u := [s[0]] + r;
        forall i, j | 0 <= i < j < |u| ensures u[i].vin != u[j].vin {
          if i == 0 {
            assert u[j] == r[j - 1] && r[j - 1] in t;
            var m :| 0 <= m < |t| && t[m] == r[j - 1];
            assert s[m + 1] == t[m];
          } else {
            assert u[i] == r[i - 1] && u[j] == r[j - 1];
          }
        }
      }
    }
  }

  /** A delete, whatever its answer, keeps at most one car per VIN. */
  lemma DeleteKeepsUnique(s: Store, vin: string)
    requires UniqueVins(s)
    ensures UniqueVins(CarDelete(s, vin).store)
  {
    RejectKeepsUnique(s, VinIs(vin));
  }

  /** The requests that reach the store: create, delete and get. */
  datatype Request = Create(car: Car) | Remove(vin: string) | Fetch(vin: string)

  /** The reply to one request. */
  function Handle(s: Store, req: Request): Reply {
    match req
    case Create(car) => CarsPost(s, car)
    case Remove(vin) => CarDelete(s, vin)
    case Fetch(vin) => Reply(CarGet(s, vin), s)
  }

  /** The store after handling a sequence of requests one after another. */
  function Run(s: Store, reqs: seq<Request>): Store
    decreases |reqs|
  {
    if reqs == [] then s else Run(Handle(s, reqs[0]).store, reqs[1..])
  }

  /** Any sequential mix of creates, deletes and gets keeps at most one car per VIN. */
  lemma {:induction false} RunKeepsUnique(s: Store, reqs: seq<Request>)
    requires UniqueVins(s)
    ensures UniqueVins(Run(s, reqs))
    decreases |reqs|
  {
    if reqs != [] {
      HandleKeepsUnique(s, reqs[0]);
      RunKeepsUnique(Handle(s, reqs[0]).store, reqs[1..]);
    }
  }

  /** Each single request keeps the invariant. */
  lemma HandleKeepsUnique(s: Store, req: Request)
    requires UniqueVins(s)
    ensures UniqueVins(Handle(s, req).store)
  {
    match req
    case Create(car) => PostKeepsUnique(s, car);
    case Remove(vin) => DeleteKeepsUnique(s, vin);
    case Fetch(_) =>
  }

  /** Creating a car with a new, well-formed VIN and fetching it returns exactly that car. */
  lemma PostThenGet(s: Store, car: Car)
    requires !HasVin(s, car.vin) && |car.vin| == 6
    ensures CarGet(CarsPost(s, car).store, car.vin) == Response(200, Json(true, Data([car])))
  {
    SelectAppend(s, car, VinIs(car.vin));
    SelectVinEmpty(s, car.vin);
  }

  /** Deleting the car just created undoes the create. */
  lemma PostThenDelete(s: Store, car: Car)
    requires !HasVin(s, car.vin) && |car.vin| == 6
    ensures CarDelete(CarsPost(s, car).store, car.vin) == Reply(Response(204, NoBody), s)
  {
    RejectAppend(s, car, VinIs(car.vin));
    RejectNothing(s, car.vin);
  }

  /**
   * Creating the same car twice: the second create is refused and leaves
   * exactly one car with that VIN.
   */
  lemma PostTwice(s: Store, car: Car)
    requires !HasVin(s, car.vin)
    ensures var first := CarsPost(s, car);
            var second := CarsPost(first.store, car);
            && second.response.body == Json(false, Message(VinExists))
            && second.store == first.store
            && WithVin(second.store, car.vin) == [car]
  {
    var first := CarsPost(s, car);
    assert first.store[|s|] == car;
    SelectAppend(s, car, VinIs(car.vin));
    SelectVinEmpty(s, car.vin);
  }

  /** For a well-formed VIN, get and delete agree on whether the car exists. */
  lemma GetDeleteAgree(s: Store, vin: string)
    requires |vin| == 6
    ensures CarGet(s, vin).status == 404 <==> CarDelete(s, vin).response.status == 404
    ensures CarGet(s, vin).status == 200 <==> CarDelete(s, vin).response.status == 204
  {
  }

  /** After a delete, the VIN is gone: a second delete and a get both answer 404. */
  lemma DeleteThenGone(s: Store, vin: string)
    requires |vin| == 6
    ensures var s' := CarDelete(s, vin).store;
            && CarGet(s', vin).status == 404
            && CarDelete(s', vin) == Reply(Response(404, Json(false, Message(NoCarFound))), s')
  {
  }

  /**
   * Create does not validate the VIN, so a car stored under a VIN of the
   * wrong length can be neither fetched nor deleted afterwards.
   */
  lemma InvalidVinUnreachable(s: Store, car: Car)
    requires !HasVin(s, car.vin) && |car.vin| != 6
    ensures CarsPost(s, car).response.body.success
    ensures car in CarsPost(s, car).store
    ensures CarGet(CarsPost(s, car).store, car.vin).status == 400
    ensures CarDelete(CarsPost(s, car).store, car.vin).store == CarsPost(s, car).store
  {
  }

  /**
   * Five cars, two per page: the first page is full and has only a next
   * link; the third page holds the last car and has only a previous link.
   */
  lemma FiveCarsTwoPerPage(s: Store)
    requires |s| == 5
    ensures var p := CarsGet(s, 2, 1).body.payload;
            p.data == s[..2] && p.prevPage.None? && p.nextPage == Some(Link(2, 2))
    ensures var p := CarsGet(s, 2, 3).body.payload;
            p.data == [s[4]] && p.prevPage == Some(Link(2, 2)) && p.nextPage.None?
  {
  }

  /**
   * A list request that names only the page uses the default page size of
   * ten: page 2 of 25 cars is cars 10 to 19.
   */
  lemma DefaultCountSecondPage(s: Store)
    requires |s| == 25
    ensures var r := CarsGetRequest(s, None, Some(2));
            && r.Some?
            && r.value.body.payload.data == s[10..20]
            && r.value.body.payload.prevPage == Some(Link(10, 1))
            && r.value.body.payload.nextPage == Some(Link(10, 3))
  {
  }
}

=== FILE: resources.dfy ===
/**
 * The two REST resources: `Cars` (list with pagination, create with a VIN
 * uniqueness check) and `Car` (get and delete by VIN). Each handler takes the
 * store and returns the response it would send, plus the store after it.
 */
module Resources {
  import opened Wrappers
  import opened CarStore
  import opened VinCheck
  import opened Pagination

  const VinNotValid := "VIN not valid"
  const NoCarFound := "No car found"
  const VinExists := "VIN already exists"

  /** The JSON payload a handler sends besides the `success` flag. */
  datatype Payload =
    | PageOf(prevPage: Option<Link>, nextPage: Option<Link>, data: Store)
    | Data(cars: Store)
    | Echo(car: Car)
    | Message(text: string)

  /** A JSON envelope `{success, ...}`, or the empty body of a 204. */
  datatype Body = Json(success: bool, payload: Payload) | NoBody

  datatype Response = Response(status: nat, body: Body)

  /** A response together with the store the request leaves behind. */
  datatype Reply = Reply(response: Response, store: Store)

  /** The documents a VIN addresses, in store order. */
  function WithVin(s: Store, vin: string): Store {
    Select(s, VinIs(vin))
  }

  predicate HasVin(s: Store, vin: string) {
    exists c :: c in s && c.vin == vin
  }

  /**
   * `index_args`: a missing `count` is 10 and a missing `startIndex` is 1;
   * a value that is present must be positive, otherwise the request is
   * rejected (`None`) before the handler runs.
   */
  function IndexArgs(count: Option<int>, startIndex: Option<int>): (r: Option<(int, int)>)
    ensures r.Some? <==> (count.None? || count.value > 0) && (startIndex.None? || startIndex.value > 0)
    ensures r.Some? ==> r.value.0 == (if count.Some? then count.value else 10)
    ensures r.Some? ==> r.value.1 == (if startIndex.Some? then startIndex.value else 1)
  {
    var c := if count.Some? then count.value else 10;
    var i := if startIndex.Some? then startIndex.value else 1;
    if c > 0 && i > 0 then Some((c, i)) else None
  }

  /**
   * `Cars.get`: always 200 with page `startIndex` of the whole collection
   * and the links around it; the store is only read.
   */
  function CarsGet(s: Store, count: int, startIndex: int): (resp: Response)
    requires count > 0 && startIndex > 0
    ensures resp.status == 200 && resp.body.Json? && resp.body.success && resp.body.payload.PageOf?
    ensures var k := SkipOf(count, startIndex);
            resp.body.payload.data
              == if k <= |s| then s[k .. if k + count <= |s| then k + count else |s|] else []
    ensures resp.body.payload.prevPage.Some? <==> startIndex > 1
    ensures resp.body.payload.prevPage.Some? ==> resp.body.payload.prevPage.value == Link(count, startIndex - 1)
    ensures resp.body.payload.nextPage.Some? <==> |s| > count * startIndex
    ensures resp.body.payload.nextPage.Some? ==> resp.body.payload.nextPage.value == Link(count, startIndex + 1)
  {
    SelectAll(s);
    PageOfWholeStore(s, count, startIndex);
    var page := GetData(s, All, count, startIndex);
    var links := GetUrls(count, startIndex, page.totalCount);
    Response(200, Json(true, PageOf(links.prev, links.next, page.items)))
  }

  /** A list request with raw query arguments; `None` when they are rejected. */
  function CarsGetRequest(s: Store, count: Option<int>, startIndex: Option<int>): (resp: Option<Response>)
    ensures resp.Some? <==> IndexArgs(count, startIndex).Some?
    ensures resp.Some? ==>
              resp.value == CarsGet(s, if count.Some? then count.value else 10,
                                    if startIndex.Some? then startIndex.value else 1)
  {
    match IndexArgs(count, startIndex)
    case Some((c, i)) => Some(CarsGet(s, c, i))
    case None => None
  }

  /**
   * `Cars.post`: a car whose VIN is already stored is refused with a soft
   * failure (status 200, `success` false) and the store stays as it was;
   * otherwise the car is appended and echoed back.
   */
  function CarsPost(s: Store, car: Car): (r: Reply)
    ensures r.response.status == 200
    ensures HasVin(s, car.vin) ==>
              r.store == s && r.response.body == Json(false, Message(VinExists))
    ensures !HasVin(s, car.vin) ==>
              r.store == s + [car] && r.response.body == Json(true, Echo(car))
  {
    SelectVinEmpty(s, car.vin);
    var found := GetData(s, VinIs(car.vin), 1, 1).items;
    if |found| == 0 then
      Reply(Response(200, Json(true, Echo(car))), InsertOne(s, car))
    else
      Reply(Response(200, Json(false, Message(VinExists))), s)
  }

  /**
   * `Car.get`: 400 for an invalid VIN; otherwise every car with that VIN, in
   * store order, or 404 when there is none.
   */
  function CarGet(s: Store, vin: string): (resp: Response)
    ensures |vin| != 6 ==> resp == Response(400, Json(false, Message(VinNotValid)))
    ensures |vin| == 6 ==> (resp.status == 404 <==> !HasVin(s, vin))
    ensures resp.status == 404 ==> resp.body == Json(false, Message(NoCarFound))
    ensures |vin| == 6 && HasVin(s, vin) ==>
              resp.status == 200 && resp.body.Json? && resp.body.success && resp.body.payload.Data?
              && resp.body.payload.cars == WithVin(s, vin)
  {
    if !ValidVin(vin) then
      Response(400, Json(false, Message(VinNotValid)))
    else
      SelectVinEmpty(s, vin);
      var cars := GetData(s, VinIs(vin), 0, 1).items;
      if |cars| == 0 then Response(404, Json(false, Message(NoCarFound)))
      else Response(200, Json(true, Data(cars)))
  }

  /**
   * `Car.delete`: 400 for an invalid VIN; otherwise every car with that VIN
   * is removed, the others stay in order, and the answer is 404 when nothing
   * was removed and 204 with an empty body otherwise.
   */
  function CarDelete(s: Store, vin: string): (r: Reply)
    ensures |vin| != 6 ==> r == Reply(Response(400, Json(false, Message(VinNotValid))), s)
    ensures |vin| == 6 ==> r.store == Reject(s, VinIs(vin))
    ensures |vin| == 6 && !HasVin(s, vin) ==>
              r == Reply(Response(404, Json(false, Message(NoCarFound))), s)
    ensures |vin| == 6 && HasVin(s, vin) ==> r.response == Response(204, NoBody)
  {
    if !ValidVin(vin) then
      Reply(Response(400, Json(false, Message(VinNotValid))), s)
    else
      var d := DeleteMany(s, VinIs(vin));
      if d.deletedCount == 0 then
        RejectNothing(s, vin);
        Reply(Response(404, Json(false, Message(NoCarFound))), d.remaining)
      else
        SelectVinEmpty(s, vin);
        Reply(Response(204, NoBody), d.remaining)
  }

  /** Rejecting a VIN nobody has keeps the store as it is. */
  lemma {:induction false} RejectNothing(s: Store, vin: string)
    requires !HasVin(s, vin)
    ensures Reject(s, VinIs(vin)) == s
    decreases |s|
  {
    if s != [] {
      assert s[0] in s;
      assert !HasVin(s[1..], vin) by {
        forall c | c in s[1..] ensures c.vin != vin {
          assert c in s;
        }
      }
      RejectNothing(s[1..], vin);
      assert s == [s[0]] + s[1..];
    }
  }
}

=== FILE: store.dfy ===
/**
 * The `cars` collection as the service sees it: an ordered sequence of car
 * documents (insertion order), with the four store primitives the service
 * uses -- filtered find with skip/limit, count, insert and delete-many.
 * Documents carry no store-internal `_id`.
 */
module CarStore {

  datatype Location = Location(city: string, state: string)

  /** An accident summary embedded in a car document. */
  datatype Accident = Accident(
    aid: int,
    carsInvolved: seq<string>,
    date: string,
    location: Location,
    description: string)

  /** A car document; `vin` is the natural key the handlers address it by. */
  datatype Car = Car(
    vin: string,
    modelName: string,
    modelYear: string,
    location: Location,
    previousOwnersCount: int,
    accidents: seq<Accident>)

  type Store = seq<Car>

  /** The two filters the service issues: `{}` and `{"VIN": v}`. */
  datatype Filter = All | VinIs(vin: string)

  predicate Matches(c: Car, f: Filter) {
    match f
    case All => true
    case VinIs(v) => c.vin == v
  }

  /** The documents a filter selects, in store order. */
  function Select(s: Store, f: Filter): (r: Store)
    ensures |r| <= |s|
    ensures forall c :: c in r <==> c in s && Matches(c, f)
    decreases |s|
  {
    if s == [] then []
    else if Matches(s[0], f) then [s[0]] + Select(s[1..], f)
    else Select(s[1..], f)
  }

  /** The documents a filter does not select, in store order. */
  function Reject(s: Store, f: Filter): (r: Store)
    ensures |r| <= |s|
    ensures forall c :: c in r <==> c in s && !Matches(c, f)
    decreases |s|
  {
    if s == [] then []
    else if Matches(s[0], f) then Reject(s[1..], f)
    else [s[0]] + Reject(s[1..], f)
  }

  /**
   * `find(filter).skip(skip).limit(limit)`: the matching documents from
   * position `skip` on, at most `limit` of them; a limit of 0 means no limit
   * and a skip past the end gives no documents.
   */
  function Find(s: Store, f: Filter, skip: nat, limit: nat): (r: Store)
    ensures limit > 0 ==> |r| <= limit
    ensures forall i :: 0 <= i < |r| ==> skip + i < |Select(s, f)| && r[i] == Select(s, f)[skip + i]
    ensures skip >= |Select(s, f)| ==> r == []
    ensures skip < |Select(s, f)| && (limit == 0 || skip + limit >= |Select(s, f)|) ==>
              |r| == |Select(s, f)| - skip
    ensures skip < |Select(s, f)| && limit > 0 && skip + limit < |Select(s, f)| ==> |r| == limit
  {
    var m := Select(s, f);
    var rest := if skip < |m| then m[skip..] else [];
    if limit == 0 || limit >= |rest| then rest else rest[..limit]
  }

  /** `count_documents(filter)`. */
  function CountDocuments(s: Store, f: Filter): nat {
    |Select(s, f)|
  }

  /** `insert_one(doc)`: the document goes after every stored one. */
  function InsertOne(s: Store, c: Car): (r: Store)
    ensures |r| == |s| + 1 && r[..|s|] == s && r[|s|] == c
  {
    s + [c]
  }

  datatype Deletion = Deletion(remaining: Store, deletedCount: nat)

  /**
   * `delete_many(filter)`: one pass over the store that drops every matching
   * document and counts the drops.
   */
  function DeleteMany(s: Store, f: Filter): (d: Deletion)
    ensures d.remaining == Reject(s, f)
    ensures d.deletedCount == |Select(s, f)|
    ensures d.deletedCount + |d.remaining| == |s|
    decreases |s|
  {
    if s == [] then Deletion([], 0)
    else
      var rest := DeleteMany(s[1..], f);
      if Matches(s[0], f) then Deletion(rest.remaining, rest.deletedCount + 1)
      else Deletion([s[0]] + rest.remaining, rest.deletedCount)
  }

  /** The empty filter selects the whole store, so `count_documents({})` is its size. */
  lemma {:induction false} SelectAll(s: Store)
    ensures Select(s, All) == s
    ensures CountDocuments(s, All) == |s|
    decreases |s|
  {
    if s != [] {
      SelectAll(s[1..]);
      assert s == [s[0]] + s[1..];
    }
  }

  /** A filter splits the store into what it selects and what it rejects. */
  lemma {:induction false} SelectRejectPartition(s: Store, f: Filter)
    ensures multiset(Select(s, f)) + multiset(Reject(s, f)) == multiset(s)
    decreases |s|
  {
    if s != [] {
      SelectRejectPartition(s[1..], f);
      assert s == [s[0]] + s[1..];
    }
  }

  /** Selecting from a store with one more document appended. */
  lemma {:induction false} SelectAppend(s: Store, c: Car, f: Filter)
    ensures Select(s + [c], f) == Select(s, f) + (if Matches(c, f) then [c] else [])
    decreases |s|
  {
    if s == [] {
      assert [c][1..] == [];
    } else {
      assert (s + [c])[1..] == s[1..] + [c];
      SelectAppend(s[1..], c, f);
    }
  }

  /** Rejecting from a store with one more document appended. */
  lemma {:induction false} RejectAppend(s: Store, c: Car, f: Filter)
    ensures Reject(s + [c], f) == Reject(s, f) + (if Matches(c, f) then [] else [c])
    decreases |s|
  {
    if s == [] {
      assert [c][1..] == [];
    } else {
      assert (s + [c])[1..] == s[1..] + [c];
      RejectAppend(s[1..], c, f);
    }
  }

  /** No stored document has this VIN exactly when the VIN filter selects nothing. */
  lemma SelectVinEmpty(s: Store, vin: string)
    ensures Select(s, VinIs(vin)) == [] <==> forall c :: c in s ==> c.vin != vin
  {
  }
}

=== FILE: vin.dfy ===
/**
 * VIN validation. The validator receives whatever value the caller hands it.
 * Of the values a parsed request can carry, Python's `len` is defined on
 * strings, lists and dicts and raises on the rest; the validator turns that
 * failure into `false`.
 */
module VinCheck {
  import opened Wrappers

  /** The values a parsed request can carry. */
  datatype Value =
    | Null
    | Bool(b: bool)
    | Num(n: int)
    | Str(s: string)
    | List(items: seq<Value>)
    | Dict(entries: map<string, Value>)

  /** Python's `len`: `None` where `len` would raise a `TypeError`. */
  function Len(v: Value): (n: Option<nat>)
    ensures n.Some? <==> v.Str? || v.List? || v.Dict?
  {
    match v
    case Str(s) => Some(|s|)
    case List(items) => Some(|items|)
    case Dict(entries) => Some(|entries|)
    case _ => None
  }

  /** `verify_vin`: a VIN is valid exactly when it has length 6; it never fails. */
  predicate VerifyVin(v: Value)
    ensures VerifyVin(v) <==> (v.Str? && |v.s| == 6) || (v.List? && |v.items| == 6)
                              || (v.Dict? && |v.entries| == 6)
  {
    match Len(v)
    case Some(n) => n == 6
    case None => false
  }

  /** The check on a VIN taken from a URL path, which is always a string. */
  predicate ValidVin(vin: string)
    ensures ValidVin(vin) <==> |vin| == 6
  {
    VerifyVin(Str(vin))
  }
}

=== FILE: wrappers.dfy ===
/** The optional value used where the service answers Python's `None`. */
module Wrappers {

  datatype Option<+T> = None | Some(value: T)
}
